=== FILE: README.md ===
# Nest Clipper clip-sync engine, modelled in Dafny

Nest Clipper saves the video clips of Google Nest camera events to local
storage. Its core has two parts.

- **The backend sync pass.** This is `main` in `nest_clipper_backend.py`. It runs on a timer.
  - It asks every camera for the events of the last twelve hours, ending three minutes before now.
  - It downloads each clip.
  - It files the clip under `root/<year>/<month>/<day>/<device>/<local stamp>.mp4`.
  - It writes the file only when nothing is stored at that path yet, and counts the new files.
- **The scheduler.** This is `start_task`, `stop_task` and `_start_periodic_task` in the same file.
  - It runs a pass at once.
  - Before each pass it reads the preferences once. After the pass it takes the new interval from `TIME_TO_REFRESH` in that same snapshot.
  - If it is still running, it arms a `threading.Timer` for the next pass.

`nest_clipper.py` is the earlier one-shot script. It runs the same loops once, with four differences:
- the path has no device folder;
- there is no three-minute grace period;
- it reads the clock again for every device, so each device's window ends at its own `now`;
- there is no counter.

## Modules

- **Wrappers.** `Option`.
- **Decimal.** Covers:
  - Python's `str()` of a non-negative integer;
  - `%02d`;
  - `int()` of a preference string.
- **Calendar.** Python's aware `datetime`:
  - the proleptic Gregorian day numbering of `toordinal`/`fromordinal`;
  - seconds since the epoch;
  - `astimezone()` into a local zone.

  The zone is a parameter that maps an instant to its UTC offset in minutes.
- **QueryWindow.** The `end_time`/`duration_minutes` request of each version, as a half-open range of instants.
- **StoragePath.**
  - The `%Y%m%dT%H%M%S%z.mp4` filename and its parser.
  - The full path, with a device folder (`PerDevice`, the backend) or without one (`Flat`, the one-shot script).
- **ClipSync.**
  - The pass as a fold over devices and events. The filesystem is a map from path to bytes.
  - The loops take the path derivation as a function value (`Namer`). `BackendPass` and `OneShotPass` instantiate it with the two layouts of `ClipPath`, so every lemma about the loops holds for both versions.
  - An independent reference description: the list of attempted writes, and "first write to a path wins".
  - Lemmas that connect the two.
- **Scheduler.**
  - The scheduler state `(running, refresh_interval, pending timer)`, and `start_task`, `stop_task` and timer fires as transitions.
  - A `stop_task` that races a running task is part of the task's input.
  - `Policy` selects the code as written or the corrected scheduler (see Findings).

## Model

| member | source | states |
|---|---|---|
| Decimal.Show | nest_clipper_backend.py:149-151 | `str()` of a year, month or day is a non-empty run of decimal digits with no leading zero that reads back as the number |
| Decimal.ShowLength | nest_clipper_backend.py:152 | a number with k decimal digits prints in exactly k characters, so `%Y` of a four-digit year is four wide |
| Decimal.Pad2 | nest_clipper_backend.py:152 | `%m %d %H %M %S` give exactly two digits that read back as the field |
| Decimal.ParseInt | nest_clipper_backend.py:69 | the modelled subset of `int()` accepts exactly an optional sign followed by one or more ASCII decimal digits; the value is the digits' value, negated after '-' |
| Decimal.ParseShowInt | nest_clipper_backend.py:69 | `int()` reads back every integer the preferences can store in decimal |
| Calendar.Ordinal | nest_clipper_backend.py:149-152 | a valid date's day number lies in 1..3652059, inside its own year's range of day numbers |
| Calendar.FromOrdinal | nest_clipper_backend.py:149-152 | every day number in range gives a valid date whose day number is that one |
| Calendar.OrdinalRoundTrip | nest_clipper_backend.py:149-152 | going from a date to its day number and back returns the same date |
| Calendar.UtcRoundTrip | nest_clipper_backend.py:152 | converting a timestamp to epoch seconds and back under its own offset returns the same timestamp |
| Calendar.UtcInRangeExact | nest_clipper_backend.py:152 | the range check on an instant holds exactly when the instant can be written as a UTC datetime in years 1..9999 |
| Calendar.AsTimeZone | nest_clipper_backend.py:152 | `astimezone()` succeeds only when the instant's UTC datetime is in range; it keeps the instant and takes the local zone's offset at that instant |
| Calendar.AsTimeZoneDefined | nest_clipper_backend.py:152 | `astimezone()` succeeds if and only if the instant's UTC datetime lies in years 1..9999 and some datetime in those years at the local offset denotes the instant |
| Calendar.AsTimeZoneSameOffset | nest_clipper_backend.py:152 | a datetime already at the local offset is returned unchanged, unless its UTC datetime falls outside years 1..9999, where `astimezone()` raises |
| Calendar.ExampleUtcOverflow | nest_clipper_backend.py:152 | 9999-12-31 23:30 at −01:00 makes `astimezone()` raise even with the local zone at −01:00, although that local datetime exists |
| QueryWindow.BackendQuery | nest_clipper_backend.py:132-145 | the backend asks for 720 minutes; the instants covered are exactly those in [now − 3 min − 12 h, now − 3 min) |
| QueryWindow.BackendQueriesOverlap | nest_clipper_backend.py:132-145 | two backend passes share a queried instant if and only if they start less than twelve hours apart |
| QueryWindow.BackendQueriesLeaveNoGap | nest_clipper_backend.py:132-145 | two passes at most twelve hours apart cover every instant from the first one's start to the second one's end |
| QueryWindow.OneShotQuery | nest_clipper.py:18-23 | the one-shot script asks for 720 minutes ending at now, with no grace period |
| QueryWindow.BackendQueryIsShiftedOneShot | nest_clipper_backend.py:132 | the backend's window is the one-shot window moved three minutes earlier |
| StoragePath.OffsetText | nest_clipper_backend.py:152 | `%z` is five characters, starting with a sign that is '-' exactly for negative offsets |
| StoragePath.OffsetTextDigits | nest_clipper_backend.py:152 | the four characters after the sign of `%z` are digits: the offset's whole hours and then its remaining minutes (under 60), each zero-padded to two |
| StoragePath.Filename | nest_clipper_backend.py:152 | the name is the year's digits followed by twenty more characters |
| StoragePath.FilenameRoundTrip | nest_clipper_backend.py:152 | parsing a clip name gives back every field of the local time, including the offset |
| StoragePath.FilenameInjective | nest_clipper_backend.py:152 | two local times get the same name if and only if they are equal |
| StoragePath.FilenameLayout | nest_clipper_backend.py:152 | for years 1000..9999: 24 characters, 'T' at index 8, the sign at index 15, ".mp4" at the end, digits everywhere else |
| StoragePath.ClipPath | nest_clipper_backend.py:149-154 | a path exists exactly when `astimezone()` succeeds; it has six parts with a device folder and five without |
| StoragePath.ClipPathAtComponents | nest_clipper_backend.py:149-154 | given the local time, the parts are root, unpadded year, month and day of the event's own date, the device name (backend only), and a name that parses back to exactly that local time |
| StoragePath.ClipPathComponents | nest_clipper_backend.py:149-154 | the parts are root, unpadded year, month and day of the event's own date, the device name (backend only), and a name that parses back to the local time |
| StoragePath.ClipPathAtCollision | nest_clipper_backend.py:149-154 | two clips share a path if and only if they have the same own date, the same local time and, in the backend, the same device |
| StoragePath.ClipPathCollision | nest_clipper_backend.py:149-154 | two events share a path if and only if they have the same date, the same instant and, in the backend, the same device |
| StoragePath.ExampleClipPath | nest_clipper_backend.py:149-154 | 08:15 on 5 March 2024 at −06:00 is filed as `root/2024/3/5/<device>/20240305T081500-0600.mp4` |
| StoragePath.ExampleDirectoryAndNameDisagree | nest_clipper_backend.py:149-154 | an event at 02:00 UTC on 5 March seen from −06:00 lands in folder `2024/3/5` under a name dated 4 March |
| ClipSync.SaveIfAbsent | nest_clipper_backend.py:157-161 | writes if and only if the path is absent; an existing file is never rewritten; otherwise exactly that path is added with the video; every other file is unchanged |
| ClipSync.SyncEvent | nest_clipper_backend.py:147-161 | one event keeps every stored file and raises the count by the number of files it added |
| ClipSync.SyncEvents | nest_clipper_backend.py:140-161 | the event loop keeps every stored file, counts exactly the files it added, and does nothing once the pass has raised |
| ClipSync.SyncDevices | nest_clipper_backend.py:138-161 | the device loop keeps every stored file and counts exactly the files it added |
| ClipSync.SyncDevicesFollowsPlan | nest_clipper_backend.py:138-161 | the loops leave the existing files plus the attempted writes with the first write to each path winning, and raise exactly when an attempt raises |
| ClipSync.SyncPassSpec | nest_clipper_backend.py:134-163 | for either layout, the files left are the attempted writes applied first-wins on the existing ones, the pass raises exactly when an attempt raises, and the count equals the number of new paths, which equals the number of attempted paths not stored before |
| ClipSync.SyncPassIdempotent | nest_clipper_backend.py:138-161 | for either layout, a second pass over the same events and the files the first one left saves nothing, changes nothing, and raises exactly when the first one did |
| ClipSync.BackendPass | nest_clipper_backend.py:128-163 | the backend's `main` leaves its attempted writes applied first-wins on the existing files, raises exactly when an attempt raises, and counts exactly the paths not stored before |
| ClipSync.OneShotPass | nest_clipper.py:10-40 | the one-shot `main` leaves its device-less attempted writes applied first-wins on the existing files and raises exactly when an attempt raises |
| ClipSync.BackendKeepsTwinDevicesApart | nest_clipper_backend.py:147-161 | two differently named cameras with an event at the same instant get two new files, each with its own video, and a count of two |
| ClipSync.OneShotSecondDeviceSkipped | nest_clipper.py:26-40 | in the one-shot script the same two events share one path: the first camera's video is stored and the second is skipped |
| Scheduler.StopTask | nest_clipper_backend.py:55-58 | `stop_task` leaves the scheduler stopped with no timer pending and the interval unchanged |
| Scheduler.Task | nest_clipper_backend.py:61-72 | a task runs `main` only if running; on success it takes the interval from the preferences; it arms one timer for that interval if and only if it is still running; it raises if and only if `main` or `int()` raised |
| Scheduler.StartTask | nest_clipper_backend.py:50-74 | a start while running changes nothing; from stopped it sets `running` and raises exactly when the immediate task fails; from stopped with nothing pending a timer is armed afterwards exactly when it is still running and the task succeeded (or the policy re-arms), so as written a failed start arms nothing; an undisturbed successful start takes the interval from the preferences and arms one timer for it |
| Scheduler.StartWhileRunning | nest_clipper_backend.py:50-51 | a `start_task` while running leaves the state unchanged, under either policy |
| Scheduler.IdleTaskDoesNothing | nest_clipper_backend.py:61-62 | a task that finds `running` false does nothing and raises nothing |
| Scheduler.StopIsFinal | nest_clipper_backend.py:55-58 | `stop_task` always leaves the scheduler stopped with nothing pending, and a second `stop_task` changes nothing |
| Scheduler.FireTimer | nest_clipper_backend.py:60-74 | nothing fires without a pending timer; a fire on a stopped scheduler only consumes the timer; on a running one a timer is pending afterwards exactly when the scheduler is still running and the task did not fail (or the policy re-arms), and the fire raises exactly when the reached task fails; a newly armed timer waits the new interval |
| Scheduler.RunConsistent | nest_clipper_backend.py:50-74 | across any calls and fires, with stops landing at the three modelled points, a pending timer belongs to a running scheduler and waits the current interval |
| Scheduler.TickReadsInterval | nest_clipper_backend.py:69-72 | a successful tick with `TIME_TO_REFRESH = str(v)` sets the interval to v and arms one timer for v |
| Scheduler.TickKeepsInterval | nest_clipper_backend.py:69-72 | without the preference the interval is kept and the next timer waits that long |
| Scheduler.StopDuringSyncArmsNothing | nest_clipper_backend.py:70-72 | a stop that lands while `main` runs leaves nothing armed |
| Scheduler.RaisingTaskArmsNothing | nest_clipper_backend.py:64-72 | as written, when `main` raises no timer is armed and the interval is unchanged |
| Scheduler.BadIntervalArmsNothing | nest_clipper_backend.py:69 | as written, when `int()` rejects the preference no timer is armed and the interval is unchanged |
| Scheduler.StartFromInitial | nest_clipper_backend.py:15-18 | from the constructor's state, a successful start leaves a running scheduler with exactly its next run armed |
| Scheduler.FailedStartStalls | nest_clipper_backend.py:50-74 | as written, a first start whose `main` raises leaves `running` set with no timer pending |
| Scheduler.StuckStaysStuck | nest_clipper_backend.py:50-74 | a scheduler that is running with no timer pending stays so under any calls and fires except `stop_task` |
| Scheduler.RunRearmingLive | nest_clipper_backend.py:60-74 | in the corrected scheduler a running scheduler always has its next run armed, whatever calls and fires happen |
| Scheduler.FailedStartRearms | nest_clipper_backend.py:60-74 | in the corrected scheduler the same failed start still arms the next run after the current interval |

## Left out

- `authenticate_user`, `Connection`, `get_nest_camera_devices`, `get_events`, `download_camera_event` and the preference database are network or storage calls. They appear as inputs:
  - a device list with optional event lists (None: the call raised);
  - optional video bytes;
  - a preference map.

  A failure in `get_nest_camera_devices` or `get_preferences` is not modelled.
- `run_console`, the signal handlers, `_prompt_for_credentials`, `is_user_authed`, `print` and logging are terminal I/O.
- Threads are left out. `threading.Timer` fires are sequential commands. A `stop_task` racing a task lands at one of three points inside the task: before the check at line 62, while `main` runs, or not at all.
  - A `start_task` while a stopped task is still inside `main` would start a second chain of timers. That interleaving is not modelled.
- Scheduler.RunConsistent: a `stop_task` landing between the check at line 70 and line 71 is not modelled. It cancels only the old timer (lines 57-58), so lines 71-72 then arm a live timer on a stopped scheduler, and a `start_task` before that timer fires starts a second chain of timers. Representing it needs more than one pending timer, which the state does not hold, so "a pending timer belongs to a running scheduler" holds only for the three modelled stop points.
- `datetime.now()` is the parameter `now` in seconds. The backend's naive local `end_time` and the one-shot script's `US/Central` relabelling are both taken as that instant.
  - The backend reads the clock once per pass (line 132). The one-shot script calls `datetime.now()` inside the device loop (nest_clipper.py:16-19), so each device's window ends at its own clock reading. QueryWindow.OneShotQuery models one such request; the event lists of a pass are inputs, so the drift between devices is not modelled.
- QueryWindow.BackendQueryIsShiftedOneShot: the one-shot script's `localize(datetime.now())` (nest_clipper.py:19) attaches US/Central to the machine's local wall-clock time. On a machine set to another zone its window ends at a different instant from `now`, offset by the difference between the two zones. QueryWindow.OneShotQuery and this lemma describe the script only on a machine set to US/Central.
- The zone database behind `astimezone()` is the `Zone` parameter.
  - Microseconds are not modelled.
  - UTC offsets are whole minutes.
- `os.makedirs`, path-separator normalisation in `os.path.join`, and file-system failures are left out.
- StoragePath.ClipPathCollision: the file system is a map keyed by exact strings, so paths are compared character by character, as on a case-sensitive file system. `os.path.exists` at line 157 asks the real file system, and the default file systems of Windows and macOS ignore case (macOS also normalises Unicode). There, cameras named "Front Door" and "front door" share a folder and the second clip is skipped. ClipPathAtCollision, ClipPathCollision and ClipSync.BackendKeepsTwinDevicesApart therefore hold only on a case-sensitive file system.
  - A `write` that fails after `open(..., "wb")` has created the file would leave an empty file that later passes skip. Writes here always succeed.
  - The counter is raised before the write, as at line 160. Because writes cannot fail, the order does not show.
- StoragePath.Filename: `%Y` is modelled as Python's `str()` of the year, which is what glibc's `strftime` gives. Other C libraries, and some CPython releases, pad `%Y` to four digits. The difference shows only below year 1000, where the modelled name is shorter than 24 characters. FilenameLayout covers only years 1000..9999.
- Decimal.ParseInt: `int()` (used by Scheduler.Task) is modelled as an optional sign followed by ASCII decimal digits. It does not strip surrounding whitespace, does not accept `_` separators, and does not accept non-ASCII Unicode decimal digits, all of which Python's `int()` does. Python's limit of 4300 digits on `int()` of a string is not modelled either.
- Scheduler.Task: the delay given to `threading.Timer` is kept as an integer. What a zero or negative delay means for the timer thread is not modelled.
- The code has no per-device isolation: a failure for one device ends the whole pass. It has no retry or backoff around a failed pass. It writes files in place, with no temporary file and rename. The model does the same.

## Findings

| source | as written | input that shows it | evidently intended | confidence | as-written member | corrected member |
|---|---|---|---|---|---|---|
| nest_clipper_backend.py:50-74 | an exception from `main` (or from `int()` on the interval) escapes the task before a timer is armed, while `running` stays true | `start_task` from the initial state with `main` raising, e.g. a network error: afterwards `running` is true with no timer pending, so no pass ever runs again and every later `start_task` does nothing until `stop_task` | a failed pass is logged and the next pass is still scheduled after the refresh interval | high (not executed) | Scheduler.FailedStartStalls | Scheduler.RunRearmingLive |

=== FILE: calendar.dfy ===
/**
 The slice of Python's `datetime` the clipper relies on: an aware datetime is a
 proleptic-Gregorian civil date and time of day plus a UTC offset; `.date()`
 reads its own fields; `.astimezone()` re-expresses the same instant at the
 offset the local zone has at that instant. Offsets are whole minutes strictly
 inside a day, as `datetime` requires of `utcoffset()`.
 */
module Calendar {
  import opened Wrappers

  const MinYear := 1
  const MaxYear := 9999
  /** `date(1970, 1, 1).toordinal()`: ordinal 1 is 0001-01-01. */
  const EpochOrdinal := 719163
  /** `date(9999, 12, 31).toordinal()`, the last day `datetime` can hold. */
  const MaxOrdinal := 3652059

  predicate IsLeap(y: int) {
    y % 4 == 0 && (y % 100 != 0 || y % 400 == 0)
  }

  function DaysInYear(y: int): int {
    if IsLeap(y) then 366 else 365
  }

  function DaysInMonth(y: int, m: int): int
    requires 1 <= m <= 12
  {
    if m == 2 then (if IsLeap(y) then 29 else 28)
    else if m == 4 || m == 6 || m == 9 || m == 11 then 30
    else 31
  }

  /** Days of year y that precede the first of month m (m == 13 gives the whole year). */
  function DaysBeforeMonth(y: int, m: int): int
    requires 1 <= m <= 13
  {
    [0, 31, 59, 90, 120, 151, 181, 212, 243, 273, 304, 334, 365][m - 1]
      + (if m > 2 && IsLeap(y) then 1 else 0)
  }

  /** Days of the years 1 .. y-1 (Python's `_days_before_year`). */
  function DaysBeforeYear(y: int): int
    requires y >= 1
  {
    var k := y - 1;
    365 * k + k / 4 - k / 100 + k / 400
  }

  lemma DaysBeforeMonthStep(y: int, m: int)
    requires 1 <= m <= 12
    ensures DaysBeforeMonth(y, m + 1) == DaysBeforeMonth(y, m) + DaysInMonth(y, m)
  {
  }

  lemma {:induction false} DaysBeforeMonthMonotone(y: int, a: int, b: int)
    requires 1 <= a < b <= 13
    ensures DaysBeforeMonth(y, a) + 28 * (b - a) <= DaysBeforeMonth(y, b)
    decreases b - a
  {
    DaysBeforeMonthStep(y, a);
    if a + 1 < b {
      DaysBeforeMonthMonotone(y, a + 1, b);
    }
  }

  /** Euclidean division by d moves by one exactly when y is a multiple of d. */
  lemma DivStep(y: int, d: int)
    requires d > 0
    ensures y / d - (y - 1) / d == (if y % d == 0 then 1 else 0)
  {
    var q, r := y / d, y % d;
    assert y == q * d + r && 0 <= r < d;
    if r == 0 {
      assert y - 1 == (q - 1) * d + (d - 1);
      DivModUnique(y - 1, d, q - 1, d - 1);
    } else {
      assert y - 1 == q * d + (r - 1);
      DivModUnique(y - 1, d, q, r - 1);
    }
  }

  lemma DivModUnique(x: int, d: int, q: int, r: int)
    requires d > 0 && x == q * d + r && 0 <= r < d
    ensures x / d == q && x % d == r
  {
    var q', r' := x / d, x % d;
    assert x == q' * d + r' && 0 <= r' < d;
    if q < q' {
      MulAtLeast(q' - q, d);
    } else if q > q' {
      MulAtLeast(q - q', d);
    }
  }

  lemma {:induction false} MulAtLeast(a: int, d: int)
    requires a >= 1 && d >= 0
    ensures a * d >= d
    decreases a
  {
    if a > 1 {
      MulAtLeast(a - 1, d);
      assert a * d == (a - 1) * d + d;
    }
  }

  lemma DaysBeforeYearStep(y: int)
    requires y >= 1
    ensures DaysBeforeYear(y + 1) == DaysBeforeYear(y) + DaysInYear(y)
  {
    DivStep(y, 4);
    DivStep(y, 100);
    DivStep(y, 400);
    LeapDivisors(y);
  }

  /** A multiple of 400 is a multiple of 100, and a multiple of 100 is a multiple of 4. */
  lemma LeapDivisors(y: int)
    ensures y % 400 == 0 ==> y % 100 == 0
    ensures y % 100 == 0 ==> y % 4 == 0
  {
    if y % 400 == 0 {
      DivModUnique(y, 100, 4 * (y / 400), 0);
    }
    if y % 100 == 0 {
      DivModUnique(y, 4, 25 * (y / 100), 0);
    }
  }

  /** Each year holds 365 or 366 days, so the year starts are strictly increasing. */
  lemma {:induction false} DaysBeforeYearMonotone(a: int, b: int)
    requires 1 <= a <= b
    ensures DaysBeforeYear(a) + 365 * (b - a) <= DaysBeforeYear(b) <= DaysBeforeYear(a) + 366 * (b - a)
    decreases b - a
  {
    if a < b {
      DaysBeforeYearMonotone(a, b - 1);
      DaysBeforeYearStep(b - 1);
    }
  }

  /** The month of year y holding its day dayOfYear, searched upwards from month m. */
  function MonthFrom(y: int, dayOfYear: int, m: int): (r: int)
    requires 1 <= m <= 12 && DaysBeforeMonth(y, m) < dayOfYear <= DaysInYear(y)
    ensures m <= r <= 12 && DaysBeforeMonth(y, r) < dayOfYear <= DaysBeforeMonth(y, r + 1)
    decreases 12 - m
  {
    if dayOfYear <= DaysBeforeMonth(y, m + 1) then m else MonthFrom(y, dayOfYear, m + 1)
  }

  datatype Date = Date(year: int, month: int, day: int)

  predicate ValidDate(d: Date) {
    MinYear <= d.year <= MaxYear && 1 <= d.month <= 12 && 1 <= d.day <= DaysInMonth(d.year, d.month)
  }

  /** Python's `date.toordinal()`. */
  function Ordinal(d: Date): (n: int)
    requires ValidDate(d)
    ensures 1 <= n <= MaxOrdinal
    ensures DaysBeforeYear(d.year) < n <= DaysBeforeYear(d.year + 1)
  {
    DayOfYearBounds(d);
    DaysBeforeYearStep(d.year);
    DaysBeforeYearMonotone(d.year + 1, MaxYear + 1);
    DaysBeforeYear(d.year) + DaysBeforeMonth(d.year, d.month) + d.day
  }

  lemma DayOfYearBounds(d: Date)
    requires ValidDate(d)
    ensures 1 <= DaysBeforeMonth(d.year, d.month) + d.day <= DaysInYear(d.year)
  {
    DaysBeforeMonthStep(d.year, d.month);
    if d.month < 12 {
      DaysBeforeMonthMonotone(d.year, d.month + 1, 13);
    }
  }

  /** A day before MaxOrdinal lies in a year no later than MaxYear. */
  lemma YearAtMostMax(n: int, y: int)
    requires 1 <= y && DaysBeforeYear(y) < n <= MaxOrdinal
    ensures y <= MaxYear
  {
    if y > MaxYear {
      DaysBeforeYearMonotone(MaxYear + 1, y);
    }
  }

  /** The date of day n, searched upwards from a year that starts before n. */
  function DateFrom(n: int, y: int): (d: Date)
    requires 1 <= y && DaysBeforeYear(y) < n <= MaxOrdinal
    ensures ValidDate(d) && Ordinal(d) == n
    decreases n - DaysBeforeYear(y)
  {
    DaysBeforeYearStep(y);
    if n <= DaysBeforeYear(y + 1) then
      YearAtMostMax(n, y);
      var m := MonthFrom(y, n - DaysBeforeYear(y), 1);
      DaysBeforeMonthStep(y, m);
      Date(y, m, n - DaysBeforeYear(y) - DaysBeforeMonth(y, m))
    else DateFrom(n, y + 1)
  }

  /** Python's `date.fromordinal(n)`: the search starts at a year that cannot be past day n. */
  function FromOrdinal(n: int): (d: Date)
    requires 1 <= n <= MaxOrdinal
    ensures ValidDate(d) && Ordinal(d) == n
  {
    DaysBeforeYearMonotone(1, (n - 1) / 366 + 1);
    DateFrom(n, (n - 1) / 366 + 1)
  }

  /** Only one year holds a given day. */
  lemma YearUnique(n: int, y: int, y': int)
    requires 1 <= y && DaysBeforeYear(y) < n <= DaysBeforeYear(y + 1)
    requires 1 <= y' && DaysBeforeYear(y') < n <= DaysBeforeYear(y' + 1)
    ensures y == y'
  {
    if y < y' {
      DaysBeforeYearMonotone(y + 1, y');
    } else if y' < y {
      DaysBeforeYearMonotone(y' + 1, y);
    }
  }

  /** Only one month of a year holds a given day of that year. */
  lemma MonthUnique(y: int, k: int, m: int, m': int)
    requires 1 <= m <= 12 && DaysBeforeMonth(y, m) < k <= DaysBeforeMonth(y, m + 1)
    requires 1 <= m' <= 12 && DaysBeforeMonth(y, m') < k <= DaysBeforeMonth(y, m' + 1)
    ensures m == m'
  {
    if m < m' {
      DaysBeforeMonthMonotone(y, m + 1, m');
    } else if m' < m {
      DaysBeforeMonthMonotone(y, m' + 1, m);
    }
  }

  /** `date.fromordinal(d.toordinal()) == d`. */
  lemma OrdinalRoundTrip(d: Date)
    requires ValidDate(d)
    ensures FromOrdinal(Ordinal(d)) == d
  {
    var n := Ordinal(d);
    var e := FromOrdinal(n);
    assert DaysBeforeYear(e.year) < n <= DaysBeforeYear(e.year + 1);
    YearUnique(n, d.year, e.year);
    var k := n - DaysBeforeYear(d.year);
    DaysBeforeMonthStep(d.year, d.month);
    DaysBeforeMonthStep(d.year, e.month);
    MonthUnique(d.year, k, d.month, e.month);
  }

  /** A UTC offset in whole minutes, strictly less than a day either way. */
  type Offset = m: int | -1440 < m < 1440

  /** The local zone: the offset it has at each instant (UTC seconds since 1970). */
  type Zone = int -> Offset

  /** The fields of an aware `datetime`, microseconds left out. */
  datatype DateTime = DateTime(year: int, month: int, day: int, hour: int, minute: int, second: int, offset: int)
  {
    function CivilDate(): Date {
      Date(year, month, day)
    }
  }

  predicate Valid(dt: DateTime) {
    && ValidDate(dt.CivilDate())
    && 0 <= dt.hour < 24 && 0 <= dt.minute < 60 && 0 <= dt.second < 60
    && -1440 < dt.offset < 1440
  }

  /** A datetime that Python can hold. */
  type Timestamp = dt: DateTime | Valid(dt) witness DateTime(1970, 1, 1, 0, 0, 0, 0)

  /** The instant a datetime denotes, in seconds since 1970-01-01T00:00:00Z (a day is 86400 seconds). */
  function ToUtcSeconds(dt: Timestamp): int {
    (Ordinal(dt.CivilDate()) - EpochOrdinal) * 86400
      + dt.hour * 3600 + dt.minute * 60 + dt.second - dt.offset * 60
  }

  /** Seconds into a day split as `divmod` does into hour, minute and second. */
  lemma TimeOfDay(secs: int)
    requires 0 <= secs < 86400
    ensures 0 <= secs / 3600 < 24 && 0 <= secs % 3600 / 60 < 60 && 0 <= secs % 3600 % 60 < 60
    ensures secs == secs / 3600 * 3600 + secs % 3600 / 60 * 60 + secs % 3600 % 60
  {
    var rem := secs % 3600;
    assert secs == secs / 3600 * 3600 + rem;
    assert rem == rem / 60 * 60 + rem % 60;
  }

  /**
   The datetime on day number n, secs seconds into the day, at the given
   offset; None when n is outside years 1 .. 9999.
   */
  function LocalDateTime(n: int, secs: int, offset: Offset): (r: Option<Timestamp>)
    requires 0 <= secs < 86400
    ensures r.Some? <==> 1 <= n <= MaxOrdinal
    ensures r.Some? ==> ToUtcSeconds(r.value) == (n - EpochOrdinal) * 86400 + secs - offset * 60
    ensures r.Some? ==> r.value.offset == offset
  {
    if 1 <= n <= MaxOrdinal then
      var d := FromOrdinal(n);
      TimeOfDay(secs);
      var rem := secs % 3600;
      var dt := DateTime(d.year, d.month, d.day, secs / 3600, rem / 60, rem % 60, offset);
      assert Valid(dt) && dt.CivilDate() == d;
      Some(dt)
    else None
  }

  /**
   The datetime at the given offset that denotes instant t, or None when its
   local date falls outside years 1 .. 9999 (Python raises `OverflowError`).
   */
  function FromUtcSeconds(t: int, offset: Offset): (r: Option<Timestamp>)
    ensures r.Some? ==> ToUtcSeconds(r.value) == t && r.value.offset == offset
  {
    var local := t + offset * 60;
    assert local == (local / 86400) * 86400 + local % 86400;
    LocalDateTime(local / 86400 + EpochOrdinal, local % 86400, offset)
  }

  /** A datetime's local seconds split into its day number and its time of day. */
  lemma LocalSecondsSplit(dt: Timestamp)
    ensures var local := ToUtcSeconds(dt) + dt.offset * 60;
            && local / 86400 + EpochOrdinal == Ordinal(dt.CivilDate())
            && local % 86400 == dt.hour * 3600 + dt.minute * 60 + dt.second
  {
    var n := Ordinal(dt.CivilDate());
    var tod := dt.hour * 3600 + dt.minute * 60 + dt.second;
    var local := ToUtcSeconds(dt) + dt.offset * 60;
    assert local == (n - EpochOrdinal) * 86400 + tod;
    DivModUnique(local, 86400, n - EpochOrdinal, tod);
  }

  /** A time of day splits back into the hour, minute and second it was built from. */
  lemma ClockSplit(h: int, m: int, s: int)
    requires 0 <= h < 24 && 0 <= m < 60 && 0 <= s < 60
    ensures var tod := h * 3600 + m * 60 + s;
            tod / 3600 == h && tod % 3600 / 60 == m && tod % 3600 % 60 == s
  {
    var rem := m * 60 + s;
    DivModUnique(h * 3600 + rem, 3600, h, rem);
    DivModUnique(rem, 60, m, s);
  }

  /** Reading a datetime's instant back at its own offset gives the same datetime. */
  lemma UtcRoundTrip(dt: Timestamp)
    ensures FromUtcSeconds(ToUtcSeconds(dt), dt.offset) == Some(dt)
  {
    LocalSecondsSplit(dt);
    FromUtcSecondsSplit(ToUtcSeconds(dt), dt.offset, Ordinal(dt.CivilDate()), dt.hour * 3600 + dt.minute * 60 + dt.second);
    LocalDateTimeOf(dt);
  }

  /** Converting an instant is building the datetime of its local day number and time of day. */
  lemma FromUtcSecondsSplit(t: int, offset: Offset, n: int, secs: int)
    requires (t + offset * 60) / 86400 + EpochOrdinal == n && (t + offset * 60) % 86400 == secs
    ensures 0 <= secs < 86400 && FromUtcSeconds(t, offset) == LocalDateTime(n, secs, offset)
  {
  }

  /** A datetime is rebuilt from its own day number and time of day. */
  lemma LocalDateTimeOf(dt: Timestamp)
    ensures LocalDateTime(Ordinal(dt.CivilDate()), dt.hour * 3600 + dt.minute * 60 + dt.second, dt.offset) == Some(dt)
  {
    var n := Ordinal(dt.CivilDate());
    var secs := dt.hour * 3600 + dt.minute * 60 + dt.second;
    assert FromOrdinal(n) == dt.CivilDate() by {
      OrdinalRoundTrip(dt.CivilDate());
    }
    assert secs / 3600 == dt.hour && secs % 3600 / 60 == dt.minute && secs % 3600 % 60 == dt.second by {
      ClockSplit(dt.hour, dt.minute, dt.second);
    }
    LocalDateTimeBuilds(n, secs, dt);
  }

  /** The datetime whose date has day number n and whose clock reads secs into the day. */
  lemma LocalDateTimeBuilds(n: int, secs: int, dt: Timestamp)
    requires 1 <= n <= MaxOrdinal && 0 <= secs < 86400
    requires FromOrdinal(n) == dt.CivilDate()
    requires secs / 3600 == dt.hour && secs % 3600 / 60 == dt.minute && secs % 3600 % 60 == dt.second
    ensures LocalDateTime(n, secs, dt.offset) == Some(dt)
  {
  }

  /** An instant is representable at an offset exactly when some datetime denotes it there. */
  lemma FromUtcSecondsDefined(t: int, offset: Offset, dt: Timestamp)
    requires dt.offset == offset && ToUtcSeconds(dt) == t
    ensures FromUtcSeconds(t, offset) == Some(dt)
  {
    UtcRoundTrip(dt);
  }

  /**
   The UTC datetime of instant t lies in years 1 .. 9999: its day number is
   1 .. MaxOrdinal.
   */
  predicate UtcInRange(t: int) {
    (1 - EpochOrdinal) * 86400 <= t < (MaxOrdinal + 1 - EpochOrdinal) * 86400
  }

  /** The range check is exactly whether the instant can be written as a UTC datetime. */
  lemma UtcInRangeExact(t: int)
    ensures UtcInRange(t) <==> FromUtcSeconds(t, 0).Some?
  {
    FromUtcSecondsSplit(t, 0, t / 86400 + EpochOrdinal, t % 86400);
  }

  /**
   Python's `dt.astimezone()`: it first computes `dt - dt.utcoffset()` as a
   UTC datetime, which raises `OverflowError` outside years 1 .. 9999, then
   the same instant at the local zone's offset for it, which may overflow too.
   */
  function AsTimeZone(dt: Timestamp, zone: Zone): (r: Option<Timestamp>)
    ensures r.Some? ==> UtcInRange(ToUtcSeconds(dt))
    ensures r.Some? ==> ToUtcSeconds(r.value) == ToUtcSeconds(dt)
    ensures r.Some? ==> r.value.offset == zone(ToUtcSeconds(dt))
  {
    var t := ToUtcSeconds(dt);
    if UtcInRange(t) then FromUtcSeconds(t, zone(t)) else None
  }

  /**
   `astimezone()` succeeds exactly when the instant's UTC datetime lies in
   years 1 .. 9999 and some datetime in those years at the local offset
   denotes the instant.
   */
  lemma AsTimeZoneDefined(dt: Timestamp, zone: Zone)
    ensures AsTimeZone(dt, zone).Some?
        <==> && UtcInRange(ToUtcSeconds(dt))
             && exists local: Timestamp :: local.offset == zone(ToUtcSeconds(dt)) && ToUtcSeconds(local) == ToUtcSeconds(dt)
  {
    var t := ToUtcSeconds(dt);
    if UtcInRange(t) && exists local: Timestamp :: local.offset == zone(t) && ToUtcSeconds(local) == t {
      var local: Timestamp :| local.offset == zone(t) && ToUtcSeconds(local) == t;
      FromUtcSecondsDefined(t, zone(t), local);
    }
  }

  /**
   A datetime already at the local zone's offset is left unchanged by
   `astimezone()`, unless its UTC datetime falls outside years 1 .. 9999.
   */
  lemma AsTimeZoneSameOffset(dt: Timestamp, zone: Zone)
    requires zone(ToUtcSeconds(dt)) == dt.offset
    ensures AsTimeZone(dt, zone) == if UtcInRange(ToUtcSeconds(dt)) then Some(dt) else None
  {
    UtcRoundTrip(dt);
  }

  /**
   9999-12-31 23:30:00-01:00 is 10000-01-01 00:30 UTC: even with the local zone
   at -01:00, where the local datetime itself exists, `astimezone()` raises.
   */
  lemma ExampleUtcOverflow(dt: Timestamp, zone: Zone)
    requires dt == DateTime(9999, 12, 31, 23, 30, 0, -60)
    requires forall t :: zone(t) == -60
    ensures AsTimeZone(dt, zone).None?
    ensures FromUtcSeconds(ToUtcSeconds(dt), -60) == Some(dt)
  {
    UtcRoundTrip(dt);
    assert Ordinal(dt.CivilDate()) == MaxOrdinal;
  }
}

=== FILE: clip_sync.dfy ===
/**
 One clip-sync pass: for every device, for every event it reports, download
 the clip, derive its path, and write it only when nothing is stored there
 yet. The filesystem is a map from path to content; the device list, the
 events and the downloaded bytes are inputs. Any call that raises ends the
 pass at that point, keeping whatever was already written.
 */
module ClipSync {
  import opened Wrappers
  import opened Calendar
  import opened StoragePath

  type Bytes = seq<bv8>
  type FileSystem = map<Path, Bytes>

  /**
   How a pass derives a clip's path from its device's name and its start;
   None where the derivation raises.
   */
  type Namer = (string, Timestamp) -> Option<Path>

  /** The path derivation of a layout under a root folder and a local zone. */
  function Naming(layout: Layout, root: string, zone: Zone): (name: Namer)
    ensures forall device, start :: name(device, start) == ClipPath(layout, root, device, start, zone)
  {
    (device: string, start: Timestamp) => ClipPath(layout, root, device, start, zone)
  }

  /** An event: its start and what downloading it gave (None: `download_camera_event` raised). */
  datatype Event = Event(start: Timestamp, video: Option<Bytes>)

  /** A camera: its name and what `get_events` returned (None: the call raised). */
  datatype Device = Device(name: string, events: Option<seq<Event>>)

  /** The state a pass threads through its loops: files, new-clip count, whether it raised. */
  datatype Pass = Pass(fs: FileSystem, saved: nat, raised: bool)

  /** The outcome of one existence-checked write. */
  datatype Write = Write(fs: FileSystem, written: bool)

  /** after holds every file before holds, with the same content. */
  predicate Extends(before: FileSystem, after: FileSystem) {
    before.Keys <= after.Keys && forall q :: q in before ==> after[q] == before[q]
  }

  /**
   `if not os.path.exists(path): open(path, "wb").write(video)`. An existing
   file is left as it is; otherwise exactly this path is added, with the video.
   */
  function SaveIfAbsent(fs: FileSystem, path: Path, video: Bytes): (w: Write)
    ensures w.written <==> path !in fs
    ensures path in fs ==> w.fs == fs
    ensures w.fs.Keys == fs.Keys + {path}
    ensures path !in fs ==> w.fs[path] == video
    ensures forall q :: q in fs ==> w.fs[q] == fs[q]
  {
    if path in fs then Write(fs, false) else Write(fs[path := video], true)
  }

  lemma NewKeysAdd(a: set<Path>, b: set<Path>, c: set<Path>)
    requires a <= b <= c
    ensures |c - a| == |c - b| + |b - a|
  {
    assert c - a == (c - b) + (b - a);
    assert (c - b) !! (b - a);
  }

  /** The body of the inner loop for one event. */
  function SyncEvent(name: Namer, device: string, e: Event, p: Pass): (r: Pass)
    requires !p.raised
    ensures Extends(p.fs, r.fs)
    ensures r.saved == p.saved + |r.fs.Keys - p.fs.Keys|
  {
    match e.video
    case None => p.(raised := true)
    case Some(video) =>
      match name(device, e.start)
      case None => p.(raised := true)
      case Some(path) =>
        var w := SaveIfAbsent(p.fs, path, video);
        assert w.fs.Keys - p.fs.Keys == if w.written then {path} else {};
        Pass(w.fs, if w.written then p.saved + 1 else p.saved, false)
  }

  /** `for event in events`, starting from pass state p. */
  function SyncEvents(name: Namer, device: string, events: seq<Event>, p: Pass): (r: Pass)
    ensures Extends(p.fs, r.fs)
    ensures r.saved == p.saved + |r.fs.Keys - p.fs.Keys|
    ensures p.raised ==> r == p
    decreases |events|
  {
    if p.raised || |events| == 0 then p
    else
      var q := SyncEvent(name, device, events[0], p);
      var r := SyncEvents(name, device, events[1..], q);
      NewKeysAdd(p.fs.Keys, q.fs.Keys, r.fs.Keys);
      r
  }

  /** `for nest_device in nest_camera_devices`, starting from pass state p. */
  function SyncDevices(name: Namer, devices: seq<Device>, p: Pass): (r: Pass)
    ensures Extends(p.fs, r.fs)
    ensures r.saved == p.saved + |r.fs.Keys - p.fs.Keys|
    ensures p.raised ==> r == p
    decreases |devices|
  {
    if p.raised || |devices| == 0 then p
    else
      match devices[0].events
      case None => p.(raised := true)
      case Some(events) =>
        var q := SyncEvents(name, devices[0].name, events, p);
        var r := SyncDevices(name, devices[1..], q);
        NewKeysAdd(p.fs.Keys, q.fs.Keys, r.fs.Keys);
        r
  }

  /** Both loops of `main`, starting with the count at zero. */
  function SyncPass(name: Namer, devices: seq<Device>, fs: FileSystem): Pass {
    SyncDevices(name, devices, Pass(fs, 0, false))
  }

  /**
   The backend's `main`: a pass with device folders. It leaves its attempted
   writes applied first-wins on the existing files, raises exactly when an
   attempt raises, and counts exactly the paths that were not there before.
   */
  function BackendPass(root: string, zone: Zone, devices: seq<Device>, fs: FileSystem): (r: Pass)
    ensures var plan := PlanDevices(Naming(PerDevice, root, zone), devices);
            && r.fs == FirstWins(fs, plan.writes)
            && r.raised == plan.raised
            && r.saved == |r.fs.Keys - fs.Keys| == |Paths(plan.writes) - fs.Keys|
  {
    SyncPassSpec(Naming(PerDevice, root, zone), devices, fs);
    SyncPass(Naming(PerDevice, root, zone), devices, fs)
  }

  /** The files after the one-shot script's `main`, and whether it raised; it keeps no count. */
  datatype Effect = Effect(fs: FileSystem, raised: bool)

  /**
   The one-shot script's `main`: the same loops with no device folder, so its
   attempted writes are applied first-wins with the device name left out of
   every path.
   */
  function OneShotPass(root: string, zone: Zone, devices: seq<Device>, fs: FileSystem): (e: Effect)
    ensures var plan := PlanDevices(Naming(Flat, root, zone), devices);
            e.fs == FirstWins(fs, plan.writes) && e.raised == plan.raised
  {
    SyncPassSpec(Naming(Flat, root, zone), devices, fs);
    var r := SyncPass(Naming(Flat, root, zone), devices, fs);
    Effect(r.fs, r.raised)
  }

  // ---------------------------------------------------------------------------
  // A reference description of a pass: the list of writes it attempts, and
  // the rule that the first write to a path wins over every later one and
  // over nothing already stored.

  /** The (path, video) writes a pass attempts in loop order, and whether it raises. */
  datatype Plan = Plan(writes: seq<(Path, Bytes)>, raised: bool)

  /** The write one event asks for, or None when its download or its path raises. */
  function Request(name: Namer, device: string, e: Event): Option<(Path, Bytes)> {
    match e.video
    case None => None
    case Some(video) =>
      match name(device, e.start)
      case None => None
      case Some(path) => Some((path, video))
  }

  function PlanEvents(name: Namer, device: string, events: seq<Event>): Plan
    decreases |events|
  {
    if |events| == 0 then Plan([], false)
    else
      match Request(name, device, events[0])
      case None => Plan([], true)
      case Some(w) =>
        var rest := PlanEvents(name, device, events[1..]);
        Plan([w] + rest.writes, rest.raised)
  }

  function PlanDevices(name: Namer, devices: seq<Device>): Plan
    decreases |devices|
  {
    if |devices| == 0 then Plan([], false)
    else
      match devices[0].events
      case None => Plan([], true)
      case Some(events) =>
        var head := PlanEvents(name, devices[0].name, events);
        if head.raised then head
        else
          var rest := PlanDevices(name, devices[1..]);
          Plan(head.writes + rest.writes, rest.raised)
  }

  function Paths(ws: seq<(Path, Bytes)>): set<Path> {
    set w | w in ws :: w.0
  }

  /** The position of the first write to q. */
  function FirstIndex(ws: seq<(Path, Bytes)>, q: Path): (i: nat)
    requires q in Paths(ws)
    ensures i < |ws| && ws[i].0 == q
    ensures forall j :: 0 <= j < i ==> ws[j].0 != q
  {
    if ws[0].0 == q then 0
    else
      var w :| w in ws && w.0 == q;
      assert w in ws[1..];
      FirstIndex(ws[1..], q) + 1
  }

  /**
   The files after the writes ws on fs, when each write is skipped if its path
   is already stored: a stored file keeps its content, a new path gets the
   video of the first write to it.
   */
  function FirstWins(fs: FileSystem, ws: seq<(Path, Bytes)>): FileSystem {
    map q | q in fs.Keys + Paths(ws) :: Winner(fs, ws, q)
  }

  /** The content path q ends up with: what is stored, else the first write's video. */
  function Winner(fs: FileSystem, ws: seq<(Path, Bytes)>, q: Path): Bytes
    requires q in fs.Keys + Paths(ws)
  {
    if q in fs then fs[q] else ws[FirstIndex(ws, q)].1
  }

  /** The files after the writes are those stored before and those written to. */
  lemma FirstWinsKeys(fs: FileSystem, ws: seq<(Path, Bytes)>)
    ensures FirstWins(fs, ws).Keys == fs.Keys + Paths(ws)
    ensures FirstWins(fs, ws).Keys - fs.Keys == Paths(ws) - fs.Keys
  {
  }

  lemma PathsAppend(w1: seq<(Path, Bytes)>, w2: seq<(Path, Bytes)>)
    ensures Paths(w1 + w2) == Paths(w1) + Paths(w2)
  {
    forall q | q in Paths(w1 + w2)
      ensures q in Paths(w1) + Paths(w2)
    {
      var w :| w in w1 + w2 && w.0 == q;
    }
    forall q | q in Paths(w1) + Paths(w2)
      ensures q in Paths(w1 + w2)
    {
      if q in Paths(w1) {
        var w :| w in w1 && w.0 == q;
        assert w in w1 + w2;
      } else {
        var w :| w in w2 && w.0 == q;
        assert w in w1 + w2;
      }
    }
  }

  lemma FirstIndexAppendLeft(w1: seq<(Path, Bytes)>, w2: seq<(Path, Bytes)>, q: Path)
    requires q in Paths(w1)
    ensures q in Paths(w1 + w2) && FirstIndex(w1 + w2, q) == FirstIndex(w1, q)
    ensures (w1 + w2)[FirstIndex(w1 + w2, q)] == w1[FirstIndex(w1, q)]
  {
    PathsAppend(w1, w2);
    var i := FirstIndex(w1, q);
    var k := FirstIndex(w1 + w2, q);
    assert (w1 + w2)[i].0 == q;
  }

  lemma FirstIndexAppendRight(w1: seq<(Path, Bytes)>, w2: seq<(Path, Bytes)>, q: Path)
    requires q !in Paths(w1) && q in Paths(w2)
    ensures q in Paths(w1 + w2) && FirstIndex(w1 + w2, q) == |w1| + FirstIndex(w2, q)
    ensures (w1 + w2)[FirstIndex(w1 + w2, q)] == w2[FirstIndex(w2, q)]
  {
    PathsAppend(w1, w2);
    var i := FirstIndex(w2, q);
    var k := FirstIndex(w1 + w2, q);
    assert (w1 + w2)[|w1| + i].0 == q;
  }

  /** What one path holds after the writes. */
  lemma FirstWinsAt(fs: FileSystem, ws: seq<(Path, Bytes)>, q: Path)
    requires q in fs.Keys + Paths(ws)
    ensures q in FirstWins(fs, ws) && FirstWins(fs, ws)[q] == Winner(fs, ws, q)
  {
  }

  lemma FirstWinsAppendAt(fs: FileSystem, w1: seq<(Path, Bytes)>, w2: seq<(Path, Bytes)>, q: Path)
    requires q in fs.Keys + Paths(w1) + Paths(w2)
    ensures Paths(w1 + w2) == Paths(w1) + Paths(w2)
    ensures FirstWins(FirstWins(fs, w1), w2)[q] == FirstWins(fs, w1 + w2)[q]
  {
    PathsAppend(w1, w2);
    var mid := FirstWins(fs, w1);
    FirstWinsKeys(fs, w1);
    FirstWinsAt(mid, w2, q);
    FirstWinsAt(fs, w1 + w2, q);
    if q in fs {
      FirstWinsAt(fs, w1, q);
    } else if q in Paths(w1) {
      FirstWinsAt(fs, w1, q);
      FirstIndexAppendLeft(w1, w2, q);
      assert Winner(mid, w2, q) == w1[FirstIndex(w1, q)].1;
    } else {
      FirstIndexAppendRight(w1, w2, q);
      assert q !in mid;
      assert Winner(mid, w2, q) == w2[FirstIndex(w2, q)].1;
    }
  }

  /** Applying two batches of writes one after the other is applying their concatenation. */
  lemma FirstWinsAppend(fs: FileSystem, w1: seq<(Path, Bytes)>, w2: seq<(Path, Bytes)>)
    ensures FirstWins(FirstWins(fs, w1), w2) == FirstWins(fs, w1 + w2)
  {
    var a := FirstWins(FirstWins(fs, w1), w2);
    var b := FirstWins(fs, w1 + w2);
    PathsAppend(w1, w2);
    FirstWinsKeys(fs, w1);
    FirstWinsKeys(FirstWins(fs, w1), w2);
    FirstWinsKeys(fs, w1 + w2);
    forall q | q in a
      ensures a[q] == b[q]
    {
      FirstWinsAppendAt(fs, w1, w2, q);
    }
  }

  /** A single write is exactly the existence-checked save. */
  lemma FirstWinsSingle(fs: FileSystem, path: Path, video: Bytes)
    ensures FirstWins(fs, [(path, video)]) == SaveIfAbsent(fs, path, video).fs
  {
    assert Paths([(path, video)]) == {path};
  }

  lemma FirstWinsEmpty(fs: FileSystem)
    ensures FirstWins(fs, []) == fs
  {
    assert Paths([]) == {};
  }


  /** One event either raises, leaving the files alone, or makes the save its request names. */
  lemma SyncEventFollowsRequest(name: Namer, device: string, e: Event, p: Pass)
    requires !p.raised
    ensures var r := SyncEvent(name, device, e, p);
            match Request(name, device, e)
            case None => r.raised && r.fs == p.fs
            case Some(w) => !r.raised && r.fs == SaveIfAbsent(p.fs, w.0, w.1).fs
  {
  }

  /** The inner loop performs exactly the writes its plan lists, first write winning. */
  lemma {:induction false} SyncEventsFollowsPlan(name: Namer, device: string, events: seq<Event>, p: Pass)
    requires !p.raised
    ensures var r := SyncEvents(name, device, events, p);
            var plan := PlanEvents(name, device, events);
            r.fs == FirstWins(p.fs, plan.writes) && r.raised == plan.raised
    decreases |events|
  {
    if |events| == 0 {
      FirstWinsEmpty(p.fs);
    } else {
      var q := SyncEvent(name, device, events[0], p);
      assert SyncEvents(name, device, events, p) == SyncEvents(name, device, events[1..], q);
      SyncEventFollowsRequest(name, device, events[0], p);
      match Request(name, device, events[0])
      case None =>
        FirstWinsEmpty(p.fs);
      case Some(w) =>
        FirstWinsSingle(p.fs, w.0, w.1);
        SyncEventsFollowsPlan(name, device, events[1..], q);
        var rest := PlanEvents(name, device, events[1..]);
        assert PlanEvents(name, device, events) == Plan([w] + rest.writes, rest.raised);
        FirstWinsAppend(p.fs, [w], rest.writes);
    }
  }

  /** The device loop performs exactly the writes its plan lists, first write winning. */
  lemma {:induction false} SyncDevicesFollowsPlan(name: Namer, devices: seq<Device>, p: Pass)
    requires !p.raised
    ensures var r := SyncDevices(name, devices, p);
            var plan := PlanDevices(name, devices);
            r.fs == FirstWins(p.fs, plan.writes) && r.raised == plan.raised
    decreases |devices|
  {
    if |devices| == 0 {
      FirstWinsEmpty(p.fs);
    } else {
      match devices[0].events
      case None =>
        FirstWinsEmpty(p.fs);
      case Some(events) =>
        var head := PlanEvents(name, devices[0].name, events);
        var q := SyncEvents(name, devices[0].name, events, p);
        SyncEventsFollowsPlan(name, devices[0].name, events, p);
        if !head.raised {
          var rest := PlanDevices(name, devices[1..]);
          SyncDevicesFollowsPlan(name, devices[1..], q);
          FirstWinsAppend(p.fs, head.writes, rest.writes);
        }
    }
  }

  /**
   A pass, whatever its path derivation: the files it leaves are its planned
   writes applied first-wins on top of the existing ones, it raises exactly
   when its plan does, and its count is the number of paths that were not
   there before.
   */
  lemma SyncPassSpec(name: Namer, devices: seq<Device>, fs: FileSystem)
    ensures var r := SyncPass(name, devices, fs);
            var plan := PlanDevices(name, devices);
            && r.fs == FirstWins(fs, plan.writes)
            && r.raised == plan.raised
            && r.saved == |r.fs.Keys - fs.Keys|
            && r.saved == |Paths(plan.writes) - fs.Keys|
  {
    SyncDevicesFollowsPlan(name, devices, Pass(fs, 0, false));
    FirstWinsKeys(fs, PlanDevices(name, devices).writes);
  }

  /** Writing again what is already stored changes nothing. */
  lemma FirstWinsStored(fs: FileSystem, ws: seq<(Path, Bytes)>)
    requires Paths(ws) <= fs.Keys
    ensures FirstWins(fs, ws) == fs
  {
  }

  /**
   Running a pass again on the same devices and events, over the files the
   first one left, saves nothing and changes nothing; it raises exactly where
   the first one did.
   */
  lemma SyncPassIdempotent(name: Namer, devices: seq<Device>, fs: FileSystem)
    ensures var first := SyncPass(name, devices, fs);
            SyncPass(name, devices, first.fs) == Pass(first.fs, 0, first.raised)
  {
    var plan := PlanDevices(name, devices);
    var after := SyncPass(name, devices, fs).fs;
    SyncPassSpec(name, devices, fs);
    SyncPassSpec(name, devices, after);
    FirstWinsStored(after, plan.writes);
    assert after.Keys - after.Keys == {};
  }

  /** Two devices, each reporting one event that starts at the same instant. */
  function TwinDevices(n1: string, n2: string, start: Timestamp, v1: Bytes, v2: Bytes): seq<Device> {
    [Device(n1, Some([Event(start, Some(v1))])), Device(n2, Some([Event(start, Some(v2))]))]
  }

  /** The plan of a device reporting one event whose clip downloads and whose path exists. */
  lemma PlanSingle(name: Namer, device: string, start: Timestamp, v: Bytes)
    requires name(device, start).Some?
    ensures PlanEvents(name, device, [Event(start, Some(v))]) == Plan([(name(device, start).value, v)], false)
  {
    var events := [Event(start, Some(v))];
    assert events[1..] == [];
    assert Request(name, device, events[0]) == Some((name(device, start).value, v));
  }

  lemma {:induction false} TwinPlan(name: Namer, n1: string, n2: string, start: Timestamp, v1: Bytes, v2: Bytes)
    requires name(n1, start).Some? && name(n2, start).Some?
    ensures var p1 := name(n1, start).value;
            var p2 := name(n2, start).value;
            PlanDevices(name, TwinDevices(n1, n2, start, v1, v2)) == Plan([(p1, v1), (p2, v2)], false)
  {
    var devices := TwinDevices(n1, n2, start, v1, v2);
    PlanSingle(name, n1, start, v1);
    PlanSingle(name, n2, start, v2);
    assert devices[1..][1..] == [];
    assert PlanDevices(name, devices[1..]) == Plan([(name(n2, start).value, v2)], false);
  }

  /** Two writes, first wins, are the two saves one after the other. */
  lemma FirstWinsPair(fs: FileSystem, p1: Path, v1: Bytes, p2: Path, v2: Bytes)
    ensures FirstWins(fs, [(p1, v1), (p2, v2)]) == SaveIfAbsent(SaveIfAbsent(fs, p1, v1).fs, p2, v2).fs
  {
    FirstWinsAppend(fs, [(p1, v1)], [(p2, v2)]);
    assert [(p1, v1)] + [(p2, v2)] == [(p1, v1), (p2, v2)];
    FirstWinsSingle(fs, p1, v1);
    FirstWinsSingle(SaveIfAbsent(fs, p1, v1).fs, p2, v2);
  }

  /**
   Both devices' single events, run through the loops: the two saves one after
   the other, nothing raised, and a count of the files they added.
   */
  lemma TwinPass(name: Namer, n1: string, n2: string, start: Timestamp, v1: Bytes, v2: Bytes, fs: FileSystem)
    requires name(n1, start).Some? && name(n2, start).Some?
    ensures var p1 := name(n1, start).value;
            var p2 := name(n2, start).value;
            var r := SyncPass(name, TwinDevices(n1, n2, start, v1, v2), fs);
            && r.fs == SaveIfAbsent(SaveIfAbsent(fs, p1, v1).fs, p2, v2).fs
            && !r.raised
            && r.saved == |r.fs.Keys - fs.Keys|
  {
    TwinPlan(name, n1, n2, start, v1, v2);
    SyncPassSpec(name, TwinDevices(n1, n2, start, v1, v2), fs);
    FirstWinsPair(fs, name(n1, start).value, v1, name(n2, start).value, v2);
  }

  /** Two saves to two different new paths add both files and nothing else. */
  lemma SaveTwoApart(fs: FileSystem, p1: Path, v1: Bytes, p2: Path, v2: Bytes)
    requires p1 != p2 && p1 !in fs && p2 !in fs
    ensures var after := SaveIfAbsent(SaveIfAbsent(fs, p1, v1).fs, p2, v2).fs;
            after == fs[p1 := v1][p2 := v2] && |after.Keys - fs.Keys| == 2
  {
    var mid := fs[p1 := v1];
    var after := mid[p2 := v2];
    assert SaveIfAbsent(fs, p1, v1).fs == mid;
    assert p2 !in mid;
    assert SaveIfAbsent(mid, p2, v2).fs == after;
    assert after.Keys - fs.Keys == {p1, p2} by {
      assert after.Keys == fs.Keys + {p1, p2};
    }
    assert |{p1, p2}| == 2;
  }

  /**
   The one-shot script stores the second device's clip under the same path as
   the first device's when both events start at the same instant, so only the
   first device's video is saved and the second is skipped.
   */
  lemma OneShotSecondDeviceSkipped(root: string, zone: Zone, n1: string, n2: string,
                                   start: Timestamp, v1: Bytes, v2: Bytes, fs: FileSystem)
    requires AsTimeZone(start, zone).Some?
    requires ClipPath(Flat, root, n1, start, zone).value !in fs
    ensures var path := ClipPath(Flat, root, n1, start, zone).value;
            OneShotPass(root, zone, TwinDevices(n1, n2, start, v1, v2), fs) == Effect(fs[path := v1], false)
  {
    var name := Naming(Flat, root, zone);
    var path := ClipPath(Flat, root, n1, start, zone).value;
    assert ClipPath(Flat, root, n2, start, zone).value == path;
    TwinPass(name, n1, n2, start, v1, v2, fs);
  }

  /**
   The backend keeps both clips apart when the two devices have different
   names: two new files, each with its own device's video, and a count of two.
   */
  lemma BackendKeepsTwinDevicesApart(root: string, zone: Zone, n1: string, n2: string,
                                     start: Timestamp, v1: Bytes, v2: Bytes, fs: FileSystem)
    requires AsTimeZone(start, zone).Some? && n1 != n2
    requires ClipPath(PerDevice, root, n1, start, zone).value !in fs
    requires ClipPath(PerDevice, root, n2, start, zone).value !in fs
    ensures var p1 := ClipPath(PerDevice, root, n1, start, zone).value;
            var p2 := ClipPath(PerDevice, root, n2, start, zone).value;
            p1 != p2 && BackendPass(root, zone, TwinDevices(n1, n2, start, v1, v2), fs) == Pass(fs[p1 := v1][p2 := v2], 2, false)
  {
    var name := Naming(PerDevice, root, zone);
    var p1 := ClipPath(PerDevice, root, n1, start, zone).value;
    var p2 := ClipPath(PerDevice, root, n2, start, zone).value;
    assert p1 != p2 by {
      ClipPathCollision(PerDevice, root, n1, n2, start, start, zone);
    }
    TwinPass(name, n1, n2, start, v1, v2, fs);
    SaveTwoApart(fs, p1, v1, p2, v2);
  }
}

=== FILE: decimal.dfy ===
/**
 Decimal text as the clipper produces and consumes it: Python's `str()` of a
 non-negative integer (unpadded, used for the year/month/day directories), the
 two-digit zero-padded fields of `strftime`, and `int()` applied to the
 refresh-interval preference.
 */
module Decimal {
  import opened Wrappers

  predicate IsDigit(c: char) {
    '0' <= c <= '9'
  }

  predicate AllDigits(s: string) {
    forall i :: 0 <= i < |s| ==> IsDigit(s[i])
  }

  function DigitValue(c: char): (d: nat)
    requires IsDigit(c)
    ensures d < 10
  {
    (c as int) - ('0' as int)
  }

  function DigitChar(d: nat): (c: char)
    requires d < 10
    ensures IsDigit(c) && DigitValue(c) == d
  {
    (('0' as int) + d) as char
  }

  /** The number a string of decimal digits denotes, most significant digit first. */
  function Value(s: string): nat
    requires AllDigits(s)
  {
    if |s| == 0 then 0 else 10 * Value(s[..|s| - 1]) + DigitValue(s[|s| - 1])
  }

  function Pow10(k: nat): (p: nat)
    ensures p >= 1
  {
    if k == 0 then 1 else 10 * Pow10(k - 1)
  }

  /** Python's `str(n)` for n >= 0: shortest decimal text, no leading zero. */
  function Show(n: nat): (s: string)
    ensures 1 <= |s| && AllDigits(s)
    ensures Value(s) == n
    ensures s[0] == '0' ==> s == "0"
  {
    if n < 10 then [DigitChar(n)]
    else
      var prefix := Show(n / 10);
      var s := prefix + [DigitChar(n % 10)];
      assert s[..|s| - 1] == prefix;
      s
  }

  /** `str()` is injective on naturals: different numbers, different directory names. */
  lemma ShowInjective(a: nat, b: nat)
    ensures Show(a) == Show(b) <==> a == b
  {
  }

  /** A number with exactly k digits prints as k characters. */
  lemma {:induction false} ShowLength(n: nat, k: nat)
    requires 1 <= k && Pow10(k - 1) <= n < Pow10(k)
    ensures |Show(n)| == k
  {
    if k > 1 {
      assert n >= 10;
      ShowLength(n / 10, k - 1);
    }
  }

  /** Two-digit zero-padded field, as `%m`, `%d`, `%H`, `%M`, `%S` and the parts of `%z`. */
  function Pad2(n: nat): (s: string)
    requires n < 100
    ensures |s| == 2 && AllDigits(s)
    ensures Value(s) == n
  {
    var s := [DigitChar(n / 10), DigitChar(n % 10)];
    assert s[..1] == [DigitChar(n / 10)] && s[..1][..0] == [];
    assert Value(s[..1]) == n / 10;
    s
  }

  /** Python's `str(i)` for any integer. */
  function ShowInt(i: int): (s: string)
    ensures 1 <= |s|
  {
    if i < 0 then "-" + Show(-i) else Show(i)
  }

  /** An optional sign, then one or more decimal digits. */
  predicate IntText(s: string) {
    && |s| >= 1
    && if s[0] == '-' || s[0] == '+' then |s| >= 2 && AllDigits(s[1..]) else AllDigits(s)
  }

  /**
   Python's `int(s)` on text: an optional sign followed by decimal digits;
   anything else raises `ValueError`, modelled as None.
   */
  function ParseInt(s: string): (r: Option<int>)
    ensures r.Some? <==> IntText(s)
    ensures r.Some? && s[0] == '-' ==> r.value == -(Value(s[1..]) as int)
    ensures r.Some? && s[0] == '+' ==> r.value == Value(s[1..])
    ensures r.Some? && s[0] != '-' && s[0] != '+' ==> r.value == Value(s)
  {
    if |s| == 0 then None
    else if s[0] == '-' || s[0] == '+' then
      var digits := s[1..];
      if |digits| == 0 || !AllDigits(digits) then None
      else
        var magnitude: int := Value(digits);
        Some(if s[0] == '-' then -magnitude else magnitude)
    else if AllDigits(s) then Some(Value(s))
    else None
  }

  /** `int(str(i)) == i`. */
  lemma ParseShowInt(i: int)
    ensures ParseInt(ShowInt(i)) == Some(i)
  {
    if i < 0 {
      var s := ShowInt(i);
      assert s[1..] == Show(-i);
    } else {
      assert ShowInt(i)[0] != '-' && ShowInt(i)[0] != '+';
    }
  }
}

=== FILE: query_window.dfy ===
/**
 The time range each pass asks `get_events` for. Instants are seconds on one
 timeline; the backend ends its query three minutes before now, the one-shot
 script ends it at now, and both look back HOURS_TO_CHECK hours.
 */
module QueryWindow {

  /** `HOURS_TO_CHECK` in both versions. */
  const HoursToCheck := 12
  /** The `duration_minutes` argument of `get_events`. */
  const DurationMinutes := HoursToCheck * 60
  const LookbackSeconds := DurationMinutes * 60
  /** The backend's allowance for events the provider has not indexed yet. */
  const GraceSeconds := 3 * 60

  /** A `get_events(end_time, duration_minutes)` request: the instants [end - duration, end). */
  datatype Query = Query(end: int, durationMinutes: int) {

    function Start(): int {
      end - durationMinutes * 60
    }

    predicate Contains(t: int) {
      Start() <= t < end
    }
  }

  /** The backend pass's request at time now. */
  function BackendQuery(now: int): (q: Query)
    ensures q.durationMinutes == 720
    ensures forall t :: q.Contains(t) <==> now - 3 * 60 - 12 * 3600 <= t < now - 3 * 60
  {
    Query(now - GraceSeconds, DurationMinutes)
  }

  /** The one-shot script's request at time now: no grace period. */
  function OneShotQuery(now: int): (q: Query)
    ensures q.durationMinutes == 720
    ensures forall t :: q.Contains(t) <==> now - 12 * 3600 <= t < now
  {
    Query(now, DurationMinutes)
  }

  /**
   Two backend passes at most twelve hours apart leave no instant between the
   first one's start and the second one's end unqueried.
   */
  lemma BackendQueriesLeaveNoGap(now1: int, now2: int, t: int)
    requires now1 <= now2 <= now1 + LookbackSeconds
    requires BackendQuery(now1).Start() <= t < BackendQuery(now2).end
    ensures BackendQuery(now1).Contains(t) || BackendQuery(now2).Contains(t)
  {
  }

  /**
   Two backend passes share a queried instant exactly when they are less than
   twelve hours apart; at exactly twelve hours the half-open ranges only touch.
   */
  lemma {:induction false} BackendQueriesOverlap(now1: int, now2: int)
    requires now1 <= now2
    ensures (exists t :: BackendQuery(now1).Contains(t) && BackendQuery(now2).Contains(t))
        <==> now2 - now1 < LookbackSeconds
  {
    if now2 - now1 < LookbackSeconds {
      var t := BackendQuery(now2).Start();
      assert BackendQuery(now1).Contains(t) && BackendQuery(now2).Contains(t);
    }
  }

  /** The backend asks for the same twelve hours as the one-shot script, three minutes earlier. */
  lemma BackendQueryIsShiftedOneShot(now: int, t: int)
    ensures BackendQuery(now).Contains(t) <==> OneShotQuery(now).Contains(t + GraceSeconds)
  {
  }
}

=== FILE: scheduler.dfy ===
/**
 The backend's periodic scheduler: `start_task`, `stop_task` and the `task`
 closure that `_start_periodic_task` runs at once and then re-arms on a
 `threading.Timer`. Threads become a sequence of commands; a `stop_task` that
 lands on another thread while a task is running is part of the task's input.

 `Policy` selects the scheduler as the code is written (`AsWritten`, where an
 exception out of `main` or out of `int()` ends the periodic chain while
 `running` stays true) or the corrected one (`Rearming`, where a failed
 attempt still arms the next timer).
 */
module Scheduler {
  import opened Wrappers
  import opened Decimal

  /** `self.refresh_interval` before any preference has been read, in seconds. */
  const DefaultRefreshSeconds: int := 3600

  /** The preference key holding the refresh interval. */
  const RefreshKey: string := "TIME_TO_REFRESH"

  /**
   `running`, `refresh_interval`, and the delay of the timer that is armed and
   has neither fired nor been cancelled, if there is one.
   */
  datatype State = State(running: bool, refreshInterval: int, timer: Option<int>)

  /** The state `__init__` leaves. */
  const Initial: State := State(false, DefaultRefreshSeconds, None)

  /** Where, if anywhere, a concurrent `stop_task` lands while a task runs. */
  datatype StopPoint =
    | NoStop
    | BeforeCheck  // before the task reads `self.running`
    | DuringSync   // after that check, before the second one

  /** What one run of the task meets: the preference snapshot, whether `main` raised, a racing stop. */
  datatype Tick = Tick(prefs: map<string, string>, mainRaised: bool, stop: StopPoint)

  /** The state after a task or a call, and whether an exception escaped it. */
  datatype Outcome = Outcome(state: State, raised: bool)

  datatype Policy = AsWritten | Rearming

  /** `stop_task`: clear `running` and cancel the pending timer. */
  function StopTask(s: State): (r: State)
    ensures !r.running && r.timer.None?
    ensures r.refreshInterval == s.refreshInterval
  {
    s.(running := false, timer := None)
  }

  /**
   `int(prefs.get("TIME_TO_REFRESH", self.refresh_interval))`: the stored text
   read as a decimal integer, or the current interval when the key is absent;
   None where `int()` raises.
   */
  function RefreshSetting(prefs: map<string, string>, current: int): Option<int> {
    if RefreshKey in prefs then ParseInt(prefs[RefreshKey]) else Some(current)
  }

  /** The task reaches `main`: it was running and no stop came before its check. */
  predicate Attempted(s: State, tick: Tick) {
    s.running && tick.stop != BeforeCheck
  }

  /** The attempt fails: `main` raised, or the interval preference is not an integer. */
  predicate Failed(s: State, tick: Tick) {
    tick.mainRaised || RefreshSetting(tick.prefs, s.refreshInterval).None?
  }

  /** After a failed attempt the corrected scheduler still arms the next timer. */
  function Recover(policy: Policy, s: State): (r: State)
    ensures r.running == s.running && r.refreshInterval == s.refreshInterval
    ensures r.timer == if policy == Rearming && s.running then Some(s.refreshInterval) else s.timer
  {
    if policy == Rearming && s.running then s.(timer := Some(s.refreshInterval)) else s
  }

  /**
   One run of `task`. Under the code as written, an exception out of `main` or
   `int()` leaves before the timer is armed; the next timer is armed only if
   `running` still holds after the sync.
   */
  function Task(policy: Policy, s: State, tick: Tick): (r: Outcome)
    ensures r.state.running <==> s.running && tick.stop == NoStop
    ensures r.raised <==> Attempted(s, tick) && Failed(s, tick)
    ensures r.state.refreshInterval
         == if Attempted(s, tick) && !Failed(s, tick)
            then RefreshSetting(tick.prefs, s.refreshInterval).value
            else s.refreshInterval
    ensures r.state.running && (!Failed(s, tick) || policy == Rearming)
            ==> r.state.timer == Some(r.state.refreshInterval)
    ensures !(r.state.running && (!Failed(s, tick) || policy == Rearming))
            ==> r.state.timer == (if tick.stop == NoStop then s.timer else None)
  {
    var checked := if tick.stop == BeforeCheck then StopTask(s) else s;
    if !checked.running then
      Outcome(if tick.stop == DuringSync then StopTask(checked) else checked, false)
    else
      var synced := if tick.stop == DuringSync then StopTask(checked) else checked;
      assert synced.running <==> tick.stop == NoStop;
      var setting := RefreshSetting(tick.prefs, synced.refreshInterval);
      if tick.mainRaised || setting.None? then
        Outcome(Recover(policy, synced), true)
      else
        var updated := synced.(refreshInterval := setting.value);
        Outcome(if updated.running then updated.(timer := Some(updated.refreshInterval)) else updated, false)
  }

  /** `start_task`: nothing when already running; otherwise set `running` and run the task at once. */
  function StartTask(policy: Policy, s: State, tick: Tick): (r: Outcome)
    ensures s.running ==> r == Outcome(s, false)
    ensures !s.running ==> (r.state.running <==> tick.stop == NoStop)
    ensures !s.running ==> (r.raised <==> tick.stop != BeforeCheck && Failed(s, tick))
    ensures !s.running && tick.stop == NoStop && !Failed(s, tick)
            ==> r.state.refreshInterval == RefreshSetting(tick.prefs, s.refreshInterval).value
                && r.state.timer == Some(r.state.refreshInterval)
    ensures !s.running && s.timer.None?
            ==> (r.state.timer.Some? <==> r.state.running && (!Failed(s, tick) || policy == Rearming))
  {
    if s.running then Outcome(s, false) else Task(policy, s.(running := true), tick)
  }

  /** The pending timer fires: it is consumed and the task runs; with no timer pending nothing fires. */
  function FireTimer(policy: Policy, s: State, tick: Tick): (r: Outcome)
    ensures s.timer.None? ==> r == Outcome(s, false)
    ensures s.timer.Some? && !s.running ==> r == Outcome(s.(timer := None), false)
    ensures r.state.timer.Some? && r.state.timer != s.timer
            ==> r.state.running && r.state.timer == Some(r.state.refreshInterval)
    ensures s.timer.Some? && s.running
            ==> (r.state.timer.Some? <==> r.state.running && (!Failed(s, tick) || policy == Rearming))
    ensures s.timer.Some? && s.running
            ==> (r.raised <==> tick.stop != BeforeCheck && Failed(s, tick))
  {
    if s.timer.None? then Outcome(s, false) else Task(policy, s.(timer := None), tick)
  }

  datatype Command = Start(tick: Tick) | Stop | Fire(tick: Tick)

  function Apply(policy: Policy, s: State, c: Command): State {
    match c
    case Start(tick) => StartTask(policy, s, tick).state
    case Stop => StopTask(s)
    case Fire(tick) => FireTimer(policy, s, tick).state
  }

  /** The state after a sequence of calls and timer fires. */
  function Run(policy: Policy, s: State, cs: seq<Command>): State
    decreases |cs|
  {
    if |cs| == 0 then s else Run(policy, Apply(policy, s, cs[0]), cs[1..])
  }

  // ---------------------------------------------------------------------------
  // Invariants.

  /** A pending timer belongs to a running scheduler and waits the current interval. */
  predicate Consistent(s: State) {
    s.timer.Some? ==> s.running && s.timer.value == s.refreshInterval
  }

  /** Consistent, and a running scheduler always has its next run armed. */
  predicate Live(s: State) {
    Consistent(s) && (s.running ==> s.timer.Some?)
  }

  /** Every call and every fire keeps a pending timer tied to `running` and the interval, under either policy. */
  lemma ApplyConsistent(policy: Policy, s: State, c: Command)
    requires Consistent(s)
    ensures Consistent(Apply(policy, s, c))
  {
    match c
    case Start(tick) =>
    case Stop =>
    case Fire(tick) =>
  }

  lemma {:induction false} RunConsistent(policy: Policy, s: State, cs: seq<Command>)
    requires Consistent(s)
    ensures Consistent(Run(policy, s, cs))
    decreases |cs|
  {
    if |cs| > 0 {
      ApplyConsistent(policy, s, cs[0]);
      RunConsistent(policy, Apply(policy, s, cs[0]), cs[1..]);
    }
  }

  /** The corrected scheduler never stays running without its next run armed. */
  lemma ApplyRearmingLive(s: State, c: Command)
    requires Live(s)
    ensures Live(Apply(Rearming, s, c))
  {
    match c
    case Start(tick) =>
    case Stop =>
    case Fire(tick) =>
  }

  lemma {:induction false} RunRearmingLive(s: State, cs: seq<Command>)
    requires Live(s)
    ensures Live(Run(Rearming, s, cs))
    decreases |cs|
  {
    if |cs| > 0 {
      ApplyRearmingLive(s, cs[0]);
      RunRearmingLive(Apply(Rearming, s, cs[0]), cs[1..]);
    }
  }

  // ---------------------------------------------------------------------------
  // Properties of single ticks.

  /** A task that finds `running` false does nothing. */
  lemma IdleTaskDoesNothing(policy: Policy, s: State, tick: Tick)
    requires Consistent(s) && !s.running
    ensures Task(policy, s, tick) == Outcome(s, false)
  {
  }

  /**
   A successful tick with no racing stop reads the interval from the stored
   text and arms exactly one timer for it.
   */
  lemma TickReadsInterval(policy: Policy, s: State, tick: Tick, v: int)
    requires s.running && tick.stop == NoStop && !tick.mainRaised
    requires RefreshKey in tick.prefs && tick.prefs[RefreshKey] == ShowInt(v)
    ensures Task(policy, s, tick) == Outcome(State(true, v, Some(v)), false)
  {
    ParseShowInt(v);
  }

  /** Without the preference the interval is kept, and the next timer waits that long. */
  lemma TickKeepsInterval(policy: Policy, s: State, tick: Tick)
    requires s.running && tick.stop == NoStop && !tick.mainRaised
    requires RefreshKey !in tick.prefs
    ensures Task(policy, s, tick) == Outcome(State(true, s.refreshInterval, Some(s.refreshInterval)), false)
  {
  }

  /** A stop during `main` keeps the new interval but arms nothing. */
  lemma StopDuringSyncArmsNothing(policy: Policy, s: State, tick: Tick)
    requires s.running && tick.stop == DuringSync
    ensures !Task(policy, s, tick).state.running && Task(policy, s, tick).state.timer.None?
  {
  }

  /** Under the code as written, a task whose `main` raises arms no timer. */
  lemma RaisingTaskArmsNothing(s: State, tick: Tick)
    requires s.running && s.timer.None? && tick.mainRaised
    ensures var r := Task(AsWritten, s, tick);
            && (r.raised <==> tick.stop != BeforeCheck)
            && r.state.timer.None?
            && r.state.refreshInterval == s.refreshInterval
  {
  }

  /** Under the code as written, an interval preference `int()` rejects also ends the chain. */
  lemma BadIntervalArmsNothing(s: State, tick: Tick)
    requires s.running && s.timer.None? && !tick.mainRaised
    requires RefreshKey in tick.prefs && ParseInt(tick.prefs[RefreshKey]).None?
    ensures var r := Task(AsWritten, s, tick);
            && (r.raised <==> tick.stop != BeforeCheck)
            && r.state.timer.None?
            && r.state.refreshInterval == s.refreshInterval
  {
  }

  /** `stop_task` always leaves the scheduler stopped with nothing pending, and doing it twice is doing it once. */
  lemma StopIsFinal(s: State)
    ensures !StopTask(s).running && StopTask(s).timer.None?
    ensures StopTask(StopTask(s)) == StopTask(s)
  {
  }

  /** A second `start_task` while running does nothing, under either policy. */
  lemma StartWhileRunning(policy: Policy, s: State, tick: Tick)
    requires s.running
    ensures Apply(policy, s, Start(tick)) == s
  {
  }

  /** From the initial state, a start that succeeds leaves a running scheduler with one timer armed. */
  lemma StartFromInitial(policy: Policy, tick: Tick)
    requires tick.stop == NoStop && !Failed(Initial, tick)
    ensures var r := StartTask(policy, Initial, tick);
            && !r.raised
            && r.state.running
            && r.state.timer == Some(r.state.refreshInterval)
            && Live(r.state)
  {
  }

  // ---------------------------------------------------------------------------
  // The stuck scheduler.

  /** Running, but with no timer pending. */
  predicate Stuck(s: State) {
    s.running && s.timer.None?
  }

  predicate NoStops(cs: seq<Command>) {
    forall i :: 0 <= i < |cs| ==> !cs[i].Stop?
  }

  /**
   Under the code as written, a first start whose `main` raises leaves the
   scheduler running with no timer: no periodic run follows, and a later
   `start_task` is refused because `running` is already true.
   */
  lemma FailedStartStalls(tick: Tick)
    requires tick.stop == NoStop && tick.mainRaised
    ensures var r := StartTask(AsWritten, Initial, tick);
            r.raised && Stuck(r.state) && !Live(r.state)
  {
  }

  /** Nothing but `stop_task` gets a stuck scheduler going again: every start and fire leaves it as it is. */
  lemma {:induction false} StuckStaysStuck(s: State, cs: seq<Command>)
    requires Stuck(s) && NoStops(cs)
    ensures Run(AsWritten, s, cs) == s
    decreases |cs|
  {
    if |cs| > 0 {
      assert Apply(AsWritten, s, cs[0]) == s;
      assert NoStops(cs[1..]) by {
        forall i | 0 <= i < |cs| - 1
          ensures !cs[1..][i].Stop?
        {
          assert cs[1..][i] == cs[i + 1];
        }
      }
      StuckStaysStuck(s, cs[1..]);
    }
  }

  /** The corrected scheduler arms its next run after the same failure. */
  lemma FailedStartRearms(tick: Tick)
    requires tick.stop == NoStop && tick.mainRaised
    ensures var r := StartTask(Rearming, Initial, tick);
            r.raised && r.state.running && r.state.timer == Some(DefaultRefreshSeconds) && Live(r.state)
  {
  }
}

=== FILE: storage_path.dfy ===
/**
 Where a clip is stored. The directory is the event's own calendar date
 (`start_time.date()`, unpadded `str()` of year, month and day); the file name
 is the event's start converted to the local zone and formatted with
 `%Y%m%dT%H%M%S%z` followed by ".mp4". The backend puts a device-name
 directory between the date and the file; the one-shot script does not.
 A path is the sequence of components `os.path.join` receives.
 */
module StoragePath {
  import opened Wrappers
  import opened Decimal
  import opened Calendar

  type Path = seq<string>

  /** Which of the two versions derives the path. */
  datatype Layout =
    | PerDevice  // the backend: root / Y / M / D / device / file
    | Flat       // the one-shot script: root / Y / M / D / file

  /** The characters `%z` prints for a whole-minute offset. */
  function OffsetText(offset: int): (s: string)
    requires -1440 < offset < 1440
    ensures |s| == 5 && (s[0] == '-' <==> offset < 0) && (s[0] == '+' <==> offset >= 0)
  {
    var magnitude := if offset < 0 then -offset else offset;
    (if offset < 0 then "-" else "+") + Pad2(magnitude / 60) + Pad2(magnitude % 60)
  }

  /** The four digits of `%z` are the offset's hours and minutes, each zero-padded to two. */
  lemma OffsetTextDigits(offset: int)
    requires -1440 < offset < 1440
    ensures var s := OffsetText(offset);
            var magnitude := if offset < 0 then -offset else offset;
            && AllDigits(s[1..])
            && Value(s[1..3]) == magnitude / 60
            && Value(s[3..5]) == magnitude % 60
  {
    var s := OffsetText(offset);
    var magnitude := if offset < 0 then -offset else offset;
    assert s[1..3] == Pad2(magnitude / 60) && s[3..5] == Pad2(magnitude % 60);
  }

  /** The twenty characters after the year: `%m%dT%H%M%S%z` and the extension. */
  function Stamp(local: Timestamp): (s: string)
    ensures |s| == 20
  {
    Pad2(local.month) + Pad2(local.day) + "T"
      + Pad2(local.hour) + Pad2(local.minute) + Pad2(local.second)
      + OffsetText(local.offset) + ".mp4"
  }

  /** `f"{local.strftime('%Y%m%dT%H%M%S%z')}.mp4"`, the year printed without padding. */
  function Filename(local: Timestamp): (name: string)
    ensures |name| == |Show(local.year)| + 20
  {
    Show(local.year) + Stamp(local)
  }

  predicate DigitPair(s: string, i: nat) {
    i + 1 < |s| && IsDigit(s[i]) && IsDigit(s[i + 1])
  }

  /** Two digits of s starting at i, read as a number. */
  function Field(s: string, i: nat): nat
    requires DigitPair(s, i)
  {
    10 * DigitValue(s[i]) + DigitValue(s[i + 1])
  }

  /** The shape of the twenty characters after the year. */
  predicate WellFormedStamp(s: string) {
    && |s| == 20
    && DigitPair(s, 0) && DigitPair(s, 2) && s[4] == 'T'
    && DigitPair(s, 5) && DigitPair(s, 7) && DigitPair(s, 9)
    && (s[11] == '+' || s[11] == '-') && DigitPair(s, 12) && DigitPair(s, 14)
    && s[16..] == ".mp4"
  }

  /** The datetime a well-formed stamp spells, in the given year. */
  function StampTime(year: int, s: string): DateTime
    requires WellFormedStamp(s)
  {
    var magnitude := Field(s, 12) * 60 + Field(s, 14);
    DateTime(year, Field(s, 0), Field(s, 2), Field(s, 5), Field(s, 7), Field(s, 9),
             if s[11] == '-' then -magnitude else magnitude)
  }

  /** Reads a clip file name back into the local datetime it was made from. */
  function ParseFilename(name: string): (r: Option<DateTime>)
  {
    if |name| < 21 then None
    else
      var k := |name| - 20;
      var year := name[..k];
      var s := name[k..];
      if !AllDigits(year) || !WellFormedStamp(s) then None
      else Some(StampTime(Value(year), s))
  }

  lemma Pad2Chars(n: nat)
    requires n < 100
    ensures Pad2(n)[0] == DigitChar(n / 10) && Pad2(n)[1] == DigitChar(n % 10)
  {
  }

  /** Every field of the stamp reads back. */
  lemma StampFields(local: Timestamp)
    ensures WellFormedStamp(Stamp(local))
    ensures StampTime(local.year, Stamp(local)) == local
  {
    var s := Stamp(local);
    var magnitude := if local.offset < 0 then -local.offset else local.offset;
    Pad2Chars(local.month);
    Pad2Chars(local.day);
    Pad2Chars(local.hour);
    Pad2Chars(local.minute);
    Pad2Chars(local.second);
    Pad2Chars(magnitude / 60);
    Pad2Chars(magnitude % 60);
    assert s[0] == Pad2(local.month)[0] && s[1] == Pad2(local.month)[1];
    assert s[2] == Pad2(local.day)[0] && s[3] == Pad2(local.day)[1];
    assert s[5] == Pad2(local.hour)[0] && s[6] == Pad2(local.hour)[1];
    assert s[7] == Pad2(local.minute)[0] && s[8] == Pad2(local.minute)[1];
    assert s[9] == Pad2(local.second)[0] && s[10] == Pad2(local.second)[1];
    assert s[11..16] == OffsetText(local.offset);
    assert s[12] == Pad2(magnitude / 60)[0] && s[13] == Pad2(magnitude / 60)[1];
    assert s[14] == Pad2(magnitude % 60)[0] && s[15] == Pad2(magnitude % 60)[1];
    assert s[16..] == ".mp4";
  }

  /** How a name made of a digit run and a well-formed stamp parses. */
  lemma ParseJoined(year: string, s: string)
    requires |year| >= 1 && AllDigits(year) && WellFormedStamp(s)
    ensures ParseFilename(year + s) == Some(StampTime(Value(year), s))
  {
    var name := year + s;
    assert name[..|name| - 20] == year && name[|name| - 20..] == s;
  }

  /** The file name encodes the local datetime completely: parsing it gives it back. */
  lemma {:induction false} FilenameRoundTrip(local: Timestamp)
    ensures ParseFilename(Filename(local)) == Some(local)
  {
    StampFields(local);
    ParseJoined(Show(local.year), Stamp(local));
  }

  /** Two different local datetimes never share a file name. */
  lemma {:induction false} FilenameInjective(a: Timestamp, b: Timestamp)
    ensures Filename(a) == Filename(b) <==> a == b
  {
    if Filename(a) == Filename(b) {
      FilenameRoundTrip(a);
      FilenameRoundTrip(b);
    }
  }

  /**
   For a four-digit year the name is 24 characters: the 'T' at index 8, the
   offset's sign at index 15, ".mp4" last, digits everywhere else.
   */
  lemma {:induction false} FilenameLayout(local: Timestamp)
    requires 1000 <= local.year
    ensures var name := Filename(local);
      && |name| == 24 && name[8] == 'T' && name[20..] == ".mp4"
      && (name[15] == '-' <==> local.offset < 0) && (name[15] == '+' <==> local.offset >= 0)
      && AllDigits(name[..8]) && AllDigits(name[9..15]) && AllDigits(name[16..20])
  {
    ShowLength(local.year, 4);
    StampFields(local);
    var name := Filename(local);
    var s := Stamp(local);
    assert name[..4] == Show(local.year) && name[4..] == s;
    assert forall i :: 0 <= i < 4 ==> name[..8][i] == Show(local.year)[i];
    assert forall i :: 4 <= i < 8 ==> name[..8][i] == s[i - 4];
    assert forall i :: 0 <= i < 6 ==> name[9..15][i] == s[i + 5];
    assert forall i :: 0 <= i < 4 ==> name[16..20][i] == s[i + 12];
  }

  /** The path of a clip whose start, converted to the local zone, is local. */
  function ClipPathAt(layout: Layout, root: string, device: string, start: Timestamp, local: Timestamp): (p: Path)
    ensures |p| == (if layout == PerDevice then 6 else 5)
  {
    var name := Filename(local);
    var year, month, day := Show(start.year), Show(start.month), Show(start.day);
    if layout == PerDevice then [root, year, month, day, device, name] else [root, year, month, day, name]
  }

  /**
   The path a clip is saved under, or None when converting its start to the
   local zone overflows (the pass raises there).
   */
  function ClipPath(layout: Layout, root: string, device: string, start: Timestamp, zone: Zone): (r: Option<Path>)
    ensures r.Some? <==> AsTimeZone(start, zone).Some?
    ensures r.Some? ==> r.value == ClipPathAt(layout, root, device, start, AsTimeZone(start, zone).value)
  {
    match AsTimeZone(start, zone)
    case None => None
    case Some(local) => Some(ClipPathAt(layout, root, device, start, local))
  }

  /** The components a clip path is assembled from, one by one. */
  lemma ClipPathParts(layout: Layout, root: string, device: string, start: Timestamp, local: Timestamp)
    ensures var p := ClipPathAt(layout, root, device, start, local);
      && p[0] == root
      && p[1] == Show(start.year) && p[2] == Show(start.month) && p[3] == Show(start.day)
      && p[|p| - 1] == Filename(local)
      && (layout == PerDevice ==> p[4] == device)
  {
  }

  /**
   What each component of a clip path says: the root, the event's own year,
   month and day, the device (backend only), and a file name that parses back
   to the local time it was made from.
   */
  lemma {:induction false} ClipPathAtComponents(layout: Layout, root: string, device: string,
                                                start: Timestamp, local: Timestamp)
    ensures var p := ClipPathAt(layout, root, device, start, local);
      && p[0] == root
      && AllDigits(p[1]) && Value(p[1]) == start.year
      && AllDigits(p[2]) && Value(p[2]) == start.month
      && AllDigits(p[3]) && Value(p[3]) == start.day
      && (layout == PerDevice ==> p[4] == device)
      && ParseFilename(p[|p| - 1]) == Some(local)
  {
    ClipPathParts(layout, root, device, start, local);
    FilenameRoundTrip(local);
  }

  /** The same, with the local time the zone gives for the event's start. */
  lemma {:induction false} ClipPathComponents(layout: Layout, root: string, device: string, start: Timestamp, zone: Zone)
    requires ClipPath(layout, root, device, start, zone).Some?
    ensures var p := ClipPath(layout, root, device, start, zone).value;
      && p[0] == root
      && AllDigits(p[1]) && Value(p[1]) == start.year
      && AllDigits(p[2]) && Value(p[2]) == start.month
      && AllDigits(p[3]) && Value(p[3]) == start.day
      && (layout == PerDevice ==> p[4] == device)
      && ParseFilename(p[|p| - 1]) == AsTimeZone(start, zone)
  {
    ClipPathAtComponents(layout, root, device, start, AsTimeZone(start, zone).value);
  }

  /**
   Two clips get the same path exactly when they have the same own calendar
   date, the same local time and, with device folders, the same device name.
   */
  lemma {:induction false} ClipPathAtCollision(layout: Layout, root: string, d1: string, d2: string,
                                               s1: Timestamp, s2: Timestamp, l1: Timestamp, l2: Timestamp)
    ensures ClipPathAt(layout, root, d1, s1, l1) == ClipPathAt(layout, root, d2, s2, l2)
        <==> s1.CivilDate() == s2.CivilDate() && l1 == l2 && (layout == PerDevice ==> d1 == d2)
  {
    if ClipPathAt(layout, root, d1, s1, l1) == ClipPathAt(layout, root, d2, s2, l2) {
      ClipPathParts(layout, root, d1, s1, l1);
      ClipPathParts(layout, root, d2, s2, l2);
      ShowInjective(s1.year, s2.year);
      ShowInjective(s1.month, s2.month);
      ShowInjective(s1.day, s2.day);
      FilenameInjective(l1, l2);
    }
  }

  /**
   Two events get the same path exactly when they have the same own calendar
   date, start at the same instant, and (for the backend) come from devices of
   the same name. In the one-shot layout the device never matters.
   */
  lemma {:induction false} ClipPathCollision(layout: Layout, root: string, d1: string, d2: string,
                                             s1: Timestamp, s2: Timestamp, zone: Zone)
    requires ClipPath(layout, root, d1, s1, zone).Some? && ClipPath(layout, root, d2, s2, zone).Some?
    ensures ClipPath(layout, root, d1, s1, zone) == ClipPath(layout, root, d2, s2, zone)
        <==> && s1.CivilDate() == s2.CivilDate()
             && ToUtcSeconds(s1) == ToUtcSeconds(s2)
             && (layout == PerDevice ==> d1 == d2)
  {
    var l1 := AsTimeZone(s1, zone).value;
    var l2 := AsTimeZone(s2, zone).value;
    ClipPathAtCollision(layout, root, d1, d2, s1, s2, l1, l2);
    assert l1 == l2 <==> ToUtcSeconds(s1) == ToUtcSeconds(s2) by {
      if ToUtcSeconds(s1) == ToUtcSeconds(s2) {
        assert AsTimeZone(s1, zone) == AsTimeZone(s2, zone);
      }
    }
  }

  lemma Show2024()
    ensures Show(2024) == "2024"
  {
    assert Show(2) == "2";
    assert Show(20) == "20";
    assert Show(202) == "202";
  }

  lemma OffsetTextMinusSix()
    ensures OffsetText(-360) == "-0600"
  {
    assert Pad2(6) == "06";
    assert Pad2(0) == "00";
  }

  /** dt holds the given year, month, day, hour, minute, second and offset. */
  predicate Fields(dt: DateTime, year: int, month: int, day: int, hour: int, minute: int, second: int, offset: int) {
    && dt.year == year && dt.month == month && dt.day == day
    && dt.hour == hour && dt.minute == minute && dt.second == second && dt.offset == offset
  }

  lemma StampExample()
    ensures Stamp(DateTime(2024, 3, 5, 8, 15, 0, -360)) == "0305T081500-0600.mp4"
  {
    OffsetTextMinusSix();
    assert Pad2(3) == "03";
    assert Pad2(5) == "05";
    assert Pad2(8) == "08";
    assert Pad2(15) == "15";
    assert Pad2(0) == "00";
  }

  lemma LocalStampExample()
    ensures Stamp(DateTime(2024, 3, 4, 20, 0, 0, -360)) == "0304T200000-0600.mp4"
  {
    OffsetTextMinusSix();
    assert Pad2(3) == "03";
    assert Pad2(4) == "04";
    assert Pad2(20) == "20";
    assert Pad2(0) == "00";
  }

  lemma FilenameExample(local: Timestamp)
    requires Fields(local, 2024, 3, 5, 8, 15, 0, -360)
    ensures Filename(local) == "20240305T081500-0600.mp4"
  {
    Show2024();
    StampExample();
    assert local == DateTime(2024, 3, 5, 8, 15, 0, -360);
    calc {
      Filename(local);
      Show(local.year) + Stamp(local);
      "2024" + "0305T081500-0600.mp4";
      "20240305T081500-0600.mp4";
    }
  }

  lemma LocalFilenameExample(local: Timestamp)
    requires Fields(local, 2024, 3, 4, 20, 0, 0, -360)
    ensures Filename(local) == "20240304T200000-0600.mp4"
  {
    Show2024();
    LocalStampExample();
    assert local == DateTime(2024, 3, 4, 20, 0, 0, -360);
    calc {
      Filename(local);
      Show(local.year) + Stamp(local);
      "2024" + "0304T200000-0600.mp4";
      "20240304T200000-0600.mp4";
    }
  }

  /** A backend clip path assembled from its folders and its file name. */
  lemma PathFromParts(root: string, device: string, start: Timestamp, zone: Zone,
                      year: string, month: string, day: string, name: string)
    requires AsTimeZone(start, zone).Some?
    requires Show(start.year) == year && Show(start.month) == month && Show(start.day) == day
    requires Filename(AsTimeZone(start, zone).value) == name
    ensures ClipPath(PerDevice, root, device, start, zone) == Some([root, year, month, day, device, name])
  {
  }

  /** The folders of an event whose own date is 2024-03-05. */
  lemma ExampleDateFolders(start: Timestamp)
    requires start.year == 2024 && start.month == 3 && start.day == 5
    ensures Show(start.year) == "2024" && Show(start.month) == "3" && Show(start.day) == "5"
  {
    Show2024();
  }

  /** 2024-03-05 02:00:00 UTC seen from UTC-06:00 is 2024-03-04 20:00:00-06:00. */
  lemma ExampleEveningBefore(start: Timestamp, zone: Zone)
    requires Fields(start, 2024, 3, 5, 2, 0, 0, 0)
    requires forall t :: zone(t) == -360
    ensures AsTimeZone(start, zone).Some?
    ensures Fields(AsTimeZone(start, zone).value, 2024, 3, 4, 20, 0, 0, -360)
  {
    var local: Timestamp := DateTime(2024, 3, 4, 20, 0, 0, -360);
    assert ToUtcSeconds(local) == ToUtcSeconds(start);
    assert zone(ToUtcSeconds(start)) == -360;
    FromUtcSecondsDefined(ToUtcSeconds(start), -360, local);
  }

  /**
   An event starting 2024-03-05 08:15:00 at UTC-06:00, with the local zone at
   UTC-06:00 throughout, is saved as root/2024/3/5/<device>/20240305T081500-0600.mp4.
   */
  lemma ExampleClipPath(root: string, device: string, start: Timestamp, zone: Zone)
    requires Fields(start, 2024, 3, 5, 8, 15, 0, -360)
    requires forall t :: zone(t) == -360
    ensures ClipPath(PerDevice, root, device, start, zone)
         == Some([root, "2024", "3", "5", device, "20240305T081500-0600.mp4"])
  {
    assert zone(ToUtcSeconds(start)) == start.offset;
    AsTimeZoneSameOffset(start, zone);
    FilenameExample(start);
    ExampleDateFolders(start);
    PathFromParts(root, device, start, zone, "2024", "3", "5", "20240305T081500-0600.mp4");
  }

  /**
   The directory and the file name can name different days: an event at
   2024-03-05 02:00:00 UTC, with the local zone at UTC-06:00 throughout, goes
   into root/2024/3/5 under the name 20240304T200000-0600.mp4.
   */
  lemma ExampleDirectoryAndNameDisagree(root: string, device: string, start: Timestamp, zone: Zone)
    requires Fields(start, 2024, 3, 5, 2, 0, 0, 0)
    requires forall t :: zone(t) == -360
    ensures ClipPath(PerDevice, root, device, start, zone)
         == Some([root, "2024", "3", "5", device, "20240304T200000-0600.mp4"])
  {
    ExampleEveningBefore(start, zone);
    LocalFilenameExample(AsTimeZone(start, zone).value);
    ExampleDateFolders(start);
    PathFromParts(root, device, start, zone, "2024", "3", "5", "20240304T200000-0600.mp4");
  }
}

=== FILE: wrappers.dfy ===
/** The outcome of a Python call that may raise: None where it raises. */
module Wrappers {
  datatype Option<+T> = None | Some(value: T)
}
